=== FILE: README.md ===
# Rule logic of five SonarQube server fragments, in Dafny

This project models five small pieces of rule logic from the SonarQube server
and the old `sonar-squid` library. The database and web plumbing around them is
left out. Each piece is a set of pure functions over immutable datatypes, and
every refusal is a `Result` error, or `Some(failure)` from the two guards
`CheckParameters` and `CheckTemplateUuidIsNotDefault`. Most errors are named after the Java
exception they model; three (`UnknownTemplate`, `ComponentNotFound`,
`DuplicateKey`) stand for failures of code outside this model, whose exceptions
are not modelled.

- **Quality-gate condition store** (`quality_gate_conditions.dfy`, module
  `QualityGateConditions`). This is the data-access object for the
  `quality_gate_conditions` table, seen through the behaviour its test asserts.
  The table is a map from the caller-chosen uuid to the row. It supports insert,
  lookup by uuid, a per-gate listing ordered by creation date, update, delete,
  and the cleanup that drops conditions whose metric is missing or disabled. The
  listing is a method: it visits the map's keys and insertion-sorts by
  `createdAt`, with loop invariants proving the listing holds exactly the
  gate's conditions, each once.
- **Permission-template deletion** (`delete_template.dfy`, module
  `DeleteTemplate`). These are the checks of `DeleteTemplateAction`, in their
  order: logged in, template exists, global administrator, stored defaults
  exist, and the template is not a resolved default. Then come the deletion
  and the clearing of an applications default that would otherwise dangle.
- **Permission change validation** (`permission_change.dfy`, module
  `PermissionChanges`). This is the `PermissionChange` constructor, its two
  null checks, and the scope-dependent check of the permission key, with the
  exact error messages. It also covers the getters.
- **Custom-measure update** (`custom_measure_update.dfy`, module
  `CustomMeasureUpdate`). This is `UpdateAction.handle`, with its ordered checks
  and their exceptions. After the checks, value and description are each
  overwritten only when supplied, and the measure is stamped with the user and
  the time.
- **Check message** (`check_message.dfy`, module `CheckMessages`). This is the
  `CheckMessage` value with its setters and getters. A bypass flag that was
  never set reads as false, and a message without arguments is returned
  verbatim.

`common.dfy` holds `Option`/`Result` (module `Wrappers`) and the failure kinds
and Java list rendering (module `Exceptions`).

Two facts about the code shape the model:
- The test chooses each condition's uuid (QualityGateConditionDaoTest.java:150);
  the store does not generate it.
- `checkParameters` throws `IllegalArgumentException` (UpdateAction.java:131).

## Model

| member | source | states |
|---|---|---|
| QualityGateConditions.Insert | server/sonar-db-dao/src/test/java/org/sonar/db/qualitygate/QualityGateConditionDaoTest.java:148-158 | insert stores the row under its caller-chosen uuid with the supplied gate, metric, operator and threshold, created at the clock reading; other rows untouched; a uuid already present is refused |
| QualityGateConditions.SelectByUuid | server/sonar-db-dao/src/test/java/org/sonar/db/qualitygate/QualityGateConditionDaoTest.java:84-90 | lookup yields null exactly when no row has the uuid, otherwise a stored row carrying that uuid |
| QualityGateConditions.InsertThenSelect | server/sonar-db-dao/src/test/java/org/sonar/db/qualitygate/QualityGateConditionDaoTest.java:45-52 | after inserting a fresh uuid, looking it up returns a row with the same gate id, metric uuid, operator and threshold |
| QualityGateConditions.SelectUnknownIsNull | server/sonar-db-dao/src/test/java/org/sonar/db/qualitygate/QualityGateConditionDaoTest.java:89 | a uuid never inserted is reported as null, not as an error |
| QualityGateConditions.SelectForQualityGate | server/sonar-db-dao/src/test/java/org/sonar/db/qualitygate/QualityGateConditionDaoTest.java:54-82 | the listing of a gate holds exactly that gate's stored conditions, none of another gate, each once, as many as the gate has (so none for an unknown gate), ordered by creation date |
| QualityGateConditions.InsertAllSucceeds | server/sonar-db-dao/src/test/java/org/sonar/db/qualitygate/QualityGateConditionDaoTest.java:58-62 | a run of inserts into an empty table succeeds exactly when the chosen uuids are pairwise distinct, and the table then holds exactly those uuids |
| QualityGateConditions.InsertAllPerGate | server/sonar-db-dao/src/test/java/org/sonar/db/qualitygate/QualityGateConditionDaoTest.java:54-73 | after a run of inserts for several gates, each gate holds exactly the conditions inserted for it, and their number equals the number of inserts for that gate |
| QualityGateConditions.Update | server/sonar-db-dao/src/test/java/org/sonar/db/qualitygate/QualityGateConditionDaoTest.java:104-121 | update rewrites metric uuid, operator and threshold of the row with the given uuid, keeps its uuid, gate and creation date, and leaves every other row and the key set unchanged |
| QualityGateConditions.UpdateThenSelect | server/sonar-db-dao/src/test/java/org/sonar/db/qualitygate/QualityGateConditionDaoTest.java:115-120 | after an update the updated condition reads back with the new rule and any other condition reads back as before |
| QualityGateConditions.Delete | server/sonar-db-dao/src/test/java/org/sonar/db/qualitygate/QualityGateConditionDaoTest.java:92-102 | delete removes the row with the condition's uuid, and every other row stays, unchanged |
| QualityGateConditions.DeleteKeepsOthers | server/sonar-db-dao/src/test/java/org/sonar/db/qualitygate/QualityGateConditionDaoTest.java:97-101 | after deleting one condition it is not found, while another stored condition is still found as it was |
| QualityGateConditions.DeleteConditionsWithInvalidMetrics | server/sonar-db-dao/src/test/java/org/sonar/db/qualitygate/QualityGateConditionDaoTest.java:123-138 | the cleanup keeps a condition exactly when its metric exists and is enabled, and keeps the kept rows unchanged |
| QualityGateConditions.CleanupKeepsExactlyValid | server/sonar-db-dao/src/test/java/org/sonar/db/qualitygate/QualityGateConditionDaoTest.java:131-137 | a stored condition is still found after the cleanup if and only if its metric exists and is enabled, and then unchanged |
| QualityGateConditions.CleanupScenario | server/sonar-db-dao/src/test/java/org/sonar/db/qualitygate/QualityGateConditionDaoTest.java:125-137 | with conditions on an enabled metric, a disabled metric and the unknown metric "299", only the first survives the cleanup |
| DeleteTemplate.CheckTemplateUuidIsNotDefault | server/sonar-webserver-webapi/src/main/java/org/sonar/server/permission/ws/template/DeleteTemplateAction.java:118-130 | the guard passes exactly when the template is none of the resolved defaults; otherwise a bad request whose message names the project, application or portfolio default, checked in that order |
| DeleteTemplate.RetrieveDefaultTemplates | server/sonar-webserver-webapi/src/main/java/org/sonar/server/permission/ws/template/DeleteTemplateAction.java:114-116 | missing stored defaults give not-found with "Can't find default templates"; otherwise the stored defaults |
| DeleteTemplate.ClearApplicationsDefault | server/sonar-webserver-webapi/src/main/java/org/sonar/server/permission/ws/template/DeleteTemplateAction.java:106-112 | the applications default no longer names the deleted template; the record is untouched when it did not, and the project and portfolio defaults are never changed |
| DeleteTemplate.DeleteTemplate | server/sonar-webserver-webapi/src/main/java/org/sonar/server/permission/ws/template/DeleteTemplateAction.java:80-100 | deletion succeeds if and only if the caller is logged in, the template exists, the caller is a global administrator, the defaults exist and the template is not a resolved default; on success exactly that template is gone and no applications default names it |
| DeleteTemplate.ProjectDefaultIsProtected | server/sonar-webserver-webapi/src/main/java/org/sonar/server/permission/ws/template/DeleteTemplateAction.java:118-121 | deleting the resolved project default is a bad request with the projects message |
| DeleteTemplate.ApplicationDefaultIsProtected | server/sonar-webserver-webapi/src/main/java/org/sonar/server/permission/ws/template/DeleteTemplateAction.java:122-125 | deleting a present resolved application default is a bad request |
| DeleteTemplate.PortfolioDefaultIsProtected | server/sonar-webserver-webapi/src/main/java/org/sonar/server/permission/ws/template/DeleteTemplateAction.java:126-129 | deleting a present resolved portfolio default is a bad request |
| DeleteTemplate.AbsentDefaultsRestrictNothing | server/sonar-webserver-webapi/src/main/java/org/sonar/server/permission/ws/template/DeleteTemplateAction.java:119-129 | with no application or portfolio default resolved, an administrator's deletion of an existing template succeeds if and only if it is not the project default |
| DeleteTemplate.MissingDefaultsIsNotFound | server/sonar-webserver-webapi/src/main/java/org/sonar/server/permission/ws/template/DeleteTemplateAction.java:92-95 | when no defaults are stored, the request ends in not-found before anything is deleted |
| DeleteTemplate.DeletionTouchesOnlyDanglingApplicationsDefault | server/sonar-webserver-webapi/src/main/java/org/sonar/server/permission/ws/template/DeleteTemplateAction.java:96-112 | after a deletion the stored defaults are as before, except that an applications default equal to the deleted uuid becomes null |
| PermissionChanges.NewPermissionChange | server/sonar-webserver-webapi/src/main/java/org/sonar/server/permission/PermissionChange.java:41-54 | a null operation or permission is a null-pointer failure; construction succeeds if and only if the permission is a global permission key (no project) or a project permission (with a project), else a bad request listing the valid values; the getters return the inputs |
| PermissionChanges.AnyMatchIsListedKey | server/sonar-webserver-webapi/src/main/java/org/sonar/server/permission/PermissionChange.java:47-49 | the `anyMatch` acceptance test on the global permissions holds exactly for the keys the refusal message lists |
| PermissionChanges.GetProjectUuid | server/sonar-webserver-webapi/src/main/java/org/sonar/server/permission/PermissionChange.java:69-72 | the project uuid is null exactly when the project is, and otherwise is that project's uuid |
| PermissionChanges.OperationIsAddOrRemove | server/sonar-webserver-webapi/src/main/java/org/sonar/server/permission/PermissionChange.java:32-34 | an operation is ADD or REMOVE, and the two differ |
| PermissionChanges.GettersRoundTrip | server/sonar-webserver-webapi/src/main/java/org/sonar/server/permission/PermissionChange.java:56-72 | a change built from a valid permission returns through its getters exactly the operation, permission and project it was built from |
| PermissionChanges.ScopesAreIndependent | server/sonar-webserver-webapi/src/main/java/org/sonar/server/permission/PermissionChange.java:46-53 | with a service whose only global key is "admin" and whose only project permission is "codeviewer", each is accepted in its own scope and refused in the other: each scope is checked against its own list only |
| CustomMeasureUpdate.CheckParameters | server/sonar-webserver-webapi/src/main/java/org/sonar/server/measure/custom/ws/UpdateAction.java:129-133 | the parameters pass exactly when a value or a description is supplied; otherwise an illegal argument "Value or description must be provided." |
| CustomMeasureUpdate.SetValue | server/sonar-webserver-webapi/src/main/java/org/sonar/server/measure/custom/ws/UpdateAction.java:117-121 | without a value the measure is unchanged; with one, only the value columns change, to what the validator yields from the measure's current value columns, the submitted value and the metric, or the validator's own error is returned unchanged |
| CustomMeasureUpdate.SetDescription | server/sonar-webserver-webapi/src/main/java/org/sonar/server/measure/custom/ws/UpdateAction.java:123-127 | the description becomes the supplied one, and is kept when none is supplied; nothing else changes |
| CustomMeasureUpdate.Handle | server/sonar-webserver-webapi/src/main/java/org/sonar/server/measure/custom/ws/UpdateAction.java:86-115 | the update succeeds if and only if the request is admissible; then only the named measure changes: user and update time are stamped, description and value are overwritten only when supplied, and identity, metric, component and creation date stay; a request that passes every earlier check fails only with the validator's own error for the submitted value |
| CustomMeasureUpdate.MissingParametersFailFirst | server/sonar-webserver-webapi/src/main/java/org/sonar/server/measure/custom/ws/UpdateAction.java:87-92 | with neither value nor description, the request fails with the illegal argument whatever the stored data |
| CustomMeasureUpdate.UnknownMeasureFails | server/sonar-webserver-webapi/src/main/java/org/sonar/server/measure/custom/ws/UpdateAction.java:93-94 | an unknown measure uuid fails with "Custom measure with id '...' does not exist" |
| CustomMeasureUpdate.MissingMetricFails | server/sonar-webserver-webapi/src/main/java/org/sonar/server/measure/custom/ws/UpdateAction.java:95-97 | a measure whose metric is missing fails with an illegal state naming the metric uuid |
| CustomMeasureUpdate.MissingUserFails | server/sonar-webserver-webapi/src/main/java/org/sonar/server/measure/custom/ws/UpdateAction.java:100-102 | a session user without a user row fails with an illegal state naming the user uuid |
| CustomMeasureUpdate.DescriptionOnlyKeepsValue | server/sonar-webserver-webapi/src/main/java/org/sonar/server/measure/custom/ws/UpdateAction.java:104-105 | an admissible description-only update sets the description and keeps the value columns |
| CustomMeasureUpdate.ValueOnlyKeepsDescription | server/sonar-webserver-webapi/src/main/java/org/sonar/server/measure/custom/ws/UpdateAction.java:104-105 | an admissible value-only update keeps the description |
| CheckMessages.NewCheckMessage | sonar-squid/src/main/java/org/sonar/squid/api/CheckMessage.java:38-94 | the getters return the checker, message and arguments given to the constructor; line and source code are null and the bypass flag reads false |
| CheckMessages.SetLine | sonar-squid/src/main/java/org/sonar/squid/api/CheckMessage.java:60-66 | after setting a line, the line reads back as that line, and no other field changes |
| CheckMessages.SetSourceCode | sonar-squid/src/main/java/org/sonar/squid/api/CheckMessage.java:52-58 | after setting the source code, it reads back as set (setting null resets it), and no other field changes |
| CheckMessages.SetBypassExclusion | sonar-squid/src/main/java/org/sonar/squid/api/CheckMessage.java:76-82 | after setting the bypass flag to b, it reads as b, and no other field changes |
| CheckMessages.IsBypassExclusion | sonar-squid/src/main/java/org/sonar/squid/api/CheckMessage.java:80-82 | the flag reads false when never set, and as set otherwise |
| CheckMessages.FormatDefaultMessage | sonar-squid/src/main/java/org/sonar/squid/api/CheckMessage.java:106-112 | with no arguments the text is the message pattern verbatim; with arguments it is the formatter's rendering of pattern and arguments |
| CheckMessages.GetText | sonar-squid/src/main/java/org/sonar/squid/api/CheckMessage.java:96-98 | whatever the locale, the text is the message pattern verbatim when there are no arguments, and the formatter's rendering of pattern and arguments otherwise |
| CheckMessages.GetTextIgnoresLocale | sonar-squid/src/main/java/org/sonar/squid/api/CheckMessage.java:96-98 | any two locales give the same text |
| CheckMessages.NoArgumentsTextIsPattern | sonar-squid/src/main/java/org/sonar/squid/api/CheckMessage.java:38-112 | a message built without arguments has its pattern as its text for every formatter and locale, and its line, source code and flag read back as set |
| CheckMessages.SetLineKeepsTextAndFlag | sonar-squid/src/main/java/org/sonar/squid/api/CheckMessage.java:60-62 | setting the line changes neither the text nor the bypass flag |

## Left out

- SQL, the MyBatis mappers and the session's open, commit and rollback are not modelled. The store is a map, and every operation is all-or-nothing because it returns a new value or an error.
- The condition DAO class and its mapper are not part of this model. Their behaviour is taken from the test. Four choices are the model's own, since no assertion of the test fixes them: a duplicate uuid on insert is a primary-key failure; an update naming no stored row changes nothing; an update keeps the stored gate id whatever gate the given condition names (the test passes the stored one, QualityGateConditionDaoTest.java:111); and insert and update stamp the update date with the clock reading (the test never reads it).
- Null columns on a condition row (a missing metric, operator or threshold) are not modelled. The test never inserts them.
- The one-off data migration that fills `metric_uuid` from the legacy `metric_id` (`PopulateQualityGateConditionsMetricUuid`) is not modelled. It is a separate migration step, not part of the store.
- Web-service registration (`define`), request parsing, the mandatory `id` parameter check and JSON output (`CustomMeasureJsonWriter`) are framework calls and are not modelled.
- Authorization (`checkLoggedIn`, `checkGlobalAdmin`, `checkPermissions`) is reduced to booleans in the session. Each false boolean is an `Unauthorized` or `Forbidden` failure, at the point where the code makes the call.
- `wsSupport.findTemplate` is reduced to membership of the template uuid in the stored set. Its lookup by name and its message are not modelled.
- `DefaultTemplatesResolver.resolve` is a function parameter; its rules are not modelled.
- Deleting a template's permissions and characteristics together with it is reduced to removing its uuid.
- `CustomMeasureValidator.setMeasureValue` is a function parameter. It receives the measure's current value columns, the submitted value and the metric, and yields the new value columns or an error. The model assumes it writes only the value columns, as its name says. The value's double rounding is not modelled.
- `selectOrFailByUuid` for the component is reduced to set membership, with a `ComponentNotFound` failure whose text is not modelled.
- `System2.now()` and `Uuids.create()` are inputs: the clock reading is passed in, and uuids are chosen by the caller.
- `defaultOrganizationProvider` is ambient state. The model holds the one organization's defaults directly.
- `MessageFormat.format` with arguments is a function parameter. `CheckMessage.toString` is not modelled.
- The `cost` field of `CheckMessage` is a floating-point value and is not modelled.
- A `CheckMessage` built with a null argument array is not modelled; `formatDefaultMessage` would throw on it.
- A null message pattern is not modelled. The constructor would store it (CheckMessage.java:40), and `formatDefaultMessage` would then return null when there are no arguments (lines 107-108).
- `getMessageArguments` returns the caller's own mutable array (CheckMessage.java:41, 92-94). The model holds an immutable sequence, so later changes to that array through either reference are not modelled.
- The `permissionService` field a `PermissionChange` keeps for its subclasses is not modelled. The subclasses are not part of this model.
- CheckMessages.FormatDefaultMessage: the formatter is total, so the text can never fail. `MessageFormat.format` throws `IllegalArgumentException` on a malformed pattern or on an argument that does not fit its format element, and that failure is not modelled.

=== FILE: check_message.dfy ===
/**
 The message a code check raises on a piece of source code: who raised it, a
 message pattern with its arguments, and optionally the line, the source code
 and whether it bypasses exclusions. `C` is the type of the checker and `A`
 the type of the message arguments.
 */
module CheckMessages {
  import opened Wrappers

  /** A Java `int`. */
  newtype int32 = x: int | -0x8000_0000 <= x < 0x8000_0000

  /** A source-code unit, known by its key. */
  datatype SourceCode = SourceCode(key: string)

  /** A locale, which the message text ignores. */
  datatype Locale = Locale(tag: string)

  /**
   The formatter applied when the message has arguments (the JDK's
   `MessageFormat.format`), whose rules are not part of this model.
   */
  type Formatter<!A> = (string, seq<A>) -> string

  /** The state of a message; `None` stands for a field never set (null). */
  datatype CheckMessage<C, A> = CheckMessage(
    checker: C,
    defaultMessage: string,
    messageArguments: seq<A>,
    line: Option<int32>,
    sourceCode: Option<SourceCode>,
    bypassExclusion: Option<bool>)

  /** The constructor: checker, message pattern and arguments; every other field null. */
  function NewCheckMessage<C, A>(checker: C, message: string, arguments: seq<A>): (m: CheckMessage<C, A>)
    ensures GetChecker(m) == checker
    ensures GetDefaultMessage(m) == message
    ensures GetMessageArguments(m) == arguments
    ensures GetLine(m).None? && GetSourceCode(m).None?
    ensures !IsBypassExclusion(m)
  {
    CheckMessage(checker, message, arguments, None, None, None)
  }

  function GetChecker<C, A>(m: CheckMessage<C, A>): C {
    m.checker
  }

  function GetDefaultMessage<C, A>(m: CheckMessage<C, A>): string {
    m.defaultMessage
  }

  function GetMessageArguments<C, A>(m: CheckMessage<C, A>): seq<A> {
    m.messageArguments
  }

  function GetLine<C, A>(m: CheckMessage<C, A>): Option<int32> {
    m.line
  }

  function GetSourceCode<C, A>(m: CheckMessage<C, A>): Option<SourceCode> {
    m.sourceCode
  }

  /** `setLine`: the line reads back as set; nothing else changes. */
  function SetLine<C, A>(m: CheckMessage<C, A>, line: int32): (r: CheckMessage<C, A>)
    ensures GetLine(r) == Some(line)
    ensures r == m.(line := r.line)
  {
    m.(line := Some(line))
  }

  /**
   `setSourceCode`: the source code reads back as set, and setting null resets
   it; nothing else changes.
   */
  function SetSourceCode<C, A>(m: CheckMessage<C, A>, sourceCode: Option<SourceCode>): (r: CheckMessage<C, A>)
    ensures GetSourceCode(r) == sourceCode
    ensures r == m.(sourceCode := r.sourceCode)
  {
    m.(sourceCode := sourceCode)
  }

  /** `setBypassExclusion`: the flag reads back as set; nothing else changes. */
  function SetBypassExclusion<C, A>(m: CheckMessage<C, A>, bypass: bool): (r: CheckMessage<C, A>)
    ensures IsBypassExclusion(r) == bypass
    ensures r == m.(bypassExclusion := r.bypassExclusion)
  {
    m.(bypassExclusion := Some(bypass))
  }

  /** `isBypassExclusion`: the flag as set, or false when it was never set. */
  function IsBypassExclusion<C, A>(m: CheckMessage<C, A>): (r: bool)
    ensures m.bypassExclusion.None? ==> !r
    ensures m.bypassExclusion.Some? ==> r == m.bypassExclusion.value
  {
    m.bypassExclusion.GetOr(false)
  }

  /**
   `formatDefaultMessage`: without arguments the pattern is the text, verbatim
   and unformatted; with arguments it is the formatter's rendering.
   */
  function FormatDefaultMessage<C, A>(m: CheckMessage<C, A>, format: Formatter<A>): (r: string)
    ensures |GetMessageArguments(m)| == 0 ==> r == GetDefaultMessage(m)
    ensures |GetMessageArguments(m)| > 0 ==> r == format(GetDefaultMessage(m), GetMessageArguments(m))
  {
    if |m.messageArguments| == 0 then m.defaultMessage
    else format(m.defaultMessage, m.messageArguments)
  }

  /** `getText`: the formatted message, whatever the locale. */
  function GetText<C, A>(m: CheckMessage<C, A>, locale: Locale, format: Formatter<A>): (r: string)
    ensures |GetMessageArguments(m)| == 0 ==> r == GetDefaultMessage(m)
    ensures |GetMessageArguments(m)| > 0 ==> r == format(GetDefaultMessage(m), GetMessageArguments(m))
  {
    FormatDefaultMessage(m, format)
  }

  /** Two locales always give the same text. */
  lemma GetTextIgnoresLocale<C, A>(m: CheckMessage<C, A>, locale: Locale, other: Locale, format: Formatter<A>)
    ensures GetText(m, locale, format) == GetText(m, other, format)
  {
  }

  /**
   A message built without arguments reads back its pattern as its text for
   every formatter and locale, even after its line, source code and flag are set.
   */
  lemma NoArgumentsTextIsPattern<C, A>(checker: C, message: string, line: int32,
                                      sourceCode: SourceCode, bypass: bool,
                                      locale: Locale, format: Formatter<A>)
    ensures var m := SetBypassExclusion(SetSourceCode(SetLine(NewCheckMessage<C, A>(checker, message, []), line), Some(sourceCode)), bypass);
      && GetText(m, locale, format) == message
      && GetLine(m) == Some(line)
      && GetSourceCode(m) == Some(sourceCode)
      && IsBypassExclusion(m) == bypass
      && GetChecker(m) == checker
  {
  }

  /** Setting the line does not disturb the text or the flag. */
  lemma SetLineKeepsTextAndFlag<C, A>(m: CheckMessage<C, A>, line: int32, locale: Locale, format: Formatter<A>)
    ensures GetText(SetLine(m, line), locale, format) == GetText(m, locale, format)
    ensures IsBypassExclusion(SetLine(m, line)) == IsBypassExclusion(m)
  {
  }
}

=== FILE: common.dfy ===
/**
 Failure-carrying datatypes shared by every module of the model: `Option` for
 Java's nullable references and `Result` for operations that either return a
 value or throw.
 */
module Wrappers {

  /** A nullable reference: `None` stands for Java's `null`. */
  datatype Option<+T> = None | Some(value: T) {

    /** Java's `x == null ? fallback : x`. */
    function GetOr(fallback: T): T {
      if Some? then value else fallback
    }
  }

  /** The outcome of a call that either returns normally or throws `error`. */
  datatype Result<+T, +E> = Ok(value: T) | Err(error: E)
}

/** Row identifiers: every table of the model keys its rows by a uuid string. */
module Identifiers {
  type Uuid = string
}

/**
 How a modelled call fails. Most constructors stand for a Java exception kind
 the modelled code throws, carrying the message text where that code fixes it;
 the last three stand for failures of code outside this model (a template
 lookup, a component lookup, the table's primary key), whose exceptions are
 not modelled.
 */
module Exceptions {
  import opened Wrappers

  datatype Failure =
    /** `BadRequestException`, raised by `checkRequest`. */
    | BadRequest(message: string)
    /** `NotFoundException`, raised by `checkFoundWithOptional`. */
    | NotFound(message: string)
    /** `UnauthorizedException`, raised when the caller is not logged in. */
    | Unauthorized
    /** `ForbiddenException`, raised by the authorization helpers. */
    | Forbidden
    /** `IllegalArgumentException`. */
    | IllegalArgument(message: string)
    /** `IllegalStateException`, raised by Guava's `checkState`. */
    | IllegalState(message: string)
    /** `NullPointerException`, raised by `requireNonNull`; `None` when it has no message. */
    | NullPointer(detail: Option<string>)
    /** Not an exception kind: the lookup of a permission template by id or name failed. */
    | UnknownTemplate
    /** Not an exception kind: `selectOrFailByUuid` found no component with this uuid. */
    | ComponentNotFound(uuid: string)
    /** Not an exception kind: the store already holds a row with this primary key. */
    | DuplicateKey(key: string)

  /** The elements of `xs` separated by `sep`. */
  function Join(xs: seq<string>, sep: string): string {
    if |xs| == 0 then ""
    else if |xs| == 1 then xs[0]
    else xs[0] + sep + Join(xs[1..], sep)
  }

  /**
   How `java.util.AbstractCollection.toString` renders a list of strings:
   the elements between square brackets, separated by a comma and a space.
   */
  function ListToString(xs: seq<string>): string {
    "[" + Join(xs, ", ") + "]"
  }
}

=== FILE: custom_measure_update.dfy ===
/**
 Updating a custom measure: a value typed in by a user for a metric on a
 component. The request names the measure and supplies a new value, a new
 description, or both; the measure is then stamped with the user and the time.
 */
module CustomMeasureUpdate {
  import opened Wrappers
  import opened Exceptions
  import opened Identifiers

  /**
   The value columns of a custom measure: a number and a text. The numeric
   column is a Java double, held here as a real.
   */
  datatype MeasureValue = MeasureValue(value: real, textValue: Option<string>)

  datatype CustomMeasure = CustomMeasure(
    uuid: Uuid,
    metricUuid: Uuid,
    componentUuid: Uuid,
    measureValue: MeasureValue,
    description: Option<string>,
    userUuid: Uuid,
    createdAt: int,
    updatedAt: int)

  /** The part of a metric the value check reads. */
  datatype Metric = Metric(uuid: Uuid, valueType: string)

  /** The tables the update reads and writes. */
  datatype Db = Db(
    measures: map<Uuid, CustomMeasure>,
    metrics: map<Uuid, Metric>,
    components: set<Uuid>,
    users: set<Uuid>)

  /** The three request parameters; `id` is mandatory, the other two optional. */
  datatype UpdateRequest = UpdateRequest(id: Uuid, value: Option<string>, description: Option<string>)

  /**
   What the user session reports: the user's uuid, and whether the
   permission check on the measure's component passes.
   */
  datatype Session = Session(userUuid: Option<Uuid>, mayAdministerComponent: bool)

  /**
   The validator that, given the measure's current value columns, parses a
   submitted value for a metric of a given type and yields the new value
   columns, or refuses the value. Its rules are not part of this model.
   */
  type Validator = (MeasureValue, string, Metric) -> Result<MeasureValue, Failure>

  const MissingParametersMessage := "Value or description must be provided."
  const NullUserMessage := "User uuid should not be null"

  function UnknownMeasureMessage(uuid: Uuid): string {
    "Custom measure with id '" + uuid + "' does not exist"
  }

  function UnknownMetricMessage(uuid: Uuid): string {
    "Metric with uuid '" + uuid + "' does not exist"
  }

  function UnknownUserMessage(uuid: Uuid): string {
    "User with uuid '" + uuid + "' does not exist"
  }

  /** `checkParameters`: at least one of value and description is supplied. */
  function CheckParameters(value: Option<string>, description: Option<string>): (r: Option<Failure>)
    ensures r.None? <==> value.Some? || description.Some?
    ensures r.Some? ==> r.value == IllegalArgument(MissingParametersMessage)
  {
    if value.None? && description.None? then Some(IllegalArgument(MissingParametersMessage)) else None
  }

  /** `setValue`: the value columns change only when a value is supplied, and then as the validator says. */
  function SetValue(m: CustomMeasure, value: Option<string>, metric: Metric, validate: Validator): (r: Result<CustomMeasure, Failure>)
    ensures value.None? ==> r == Ok(m)
    ensures value.Some? ==> (r.Ok? <==> validate(m.measureValue, value.value, metric).Ok?)
    ensures r.Ok? ==> r.value == m.(measureValue := r.value.measureValue)
    ensures r.Ok? && value.Some? ==> r.value.measureValue == validate(m.measureValue, value.value, metric).value
    ensures r.Err? ==> value.Some? && r.error == validate(m.measureValue, value.value, metric).error
  {
    match value
    case None => Ok(m)
    case Some(v) =>
      match validate(m.measureValue, v, metric)
      case Err(e) => Err(e)
      case Ok(mv) => Ok(m.(measureValue := mv))
  }

  /** `setDescription`: the description changes only when one is supplied. */
  function SetDescription(m: CustomMeasure, description: Option<string>): (r: CustomMeasure)
    ensures r == m.(description := r.description)
    ensures r.description == (if description.Some? then description else m.description)
  {
    if description.Some? then m.(description := description) else m
  }

  /**
   Every check before the validator passes: a parameter is supplied, the
   measure, its metric, its component and the session user exist, and the
   permission check passes.
   */
  predicate PassesChecks(db: Db, req: UpdateRequest, session: Session) {
    && (req.value.Some? || req.description.Some?)
    && req.id in db.measures
    && db.measures[req.id].metricUuid in db.metrics
    && db.measures[req.id].componentUuid in db.components
    && session.mayAdministerComponent
    && session.userUuid.Some?
    && session.userUuid.value in db.users
  }

  /**
   Reference definition of an admissible request: every check passes, and a
   supplied value is accepted by the validator.
   */
  predicate Admissible(db: Db, req: UpdateRequest, session: Session, validate: Validator) {
    && PassesChecks(db, req, session)
    && (req.value.Some? ==>
          validate(db.measures[req.id].measureValue, req.value.value, db.metrics[db.measures[req.id].metricUuid]).Ok?)
  }

  /**
   `handle`: the parameter check, then in order the measure, its metric, its
   component, the permission check, the session user and the user row; then
   value and description are set as supplied, the measure is stamped with the
   user and the clock reading `now`, and written back.
   */
  function Handle(db: Db, req: UpdateRequest, session: Session, now: int, validate: Validator): (r: Result<Db, Failure>)
    ensures r.Ok? <==> Admissible(db, req, session, validate)
    ensures PassesChecks(db, req, session) && r.Err? ==>
      var before := db.measures[req.id];
      && req.value.Some?
      && r.error == validate(before.measureValue, req.value.value, db.metrics[before.metricUuid]).error
    ensures r.Ok? ==>
      && r.value.metrics == db.metrics && r.value.components == db.components && r.value.users == db.users
      && r.value.measures.Keys == db.measures.Keys
      && (forall u | u in db.measures && u != req.id :: r.value.measures[u] == db.measures[u])
    ensures r.Ok? ==>
      var before := db.measures[req.id];
      var after := r.value.measures[req.id];
      && after.userUuid == session.userUuid.value
      && after.updatedAt == now
      && after.description == (if req.description.Some? then req.description else before.description)
      && (req.value.None? ==> after.measureValue == before.measureValue)
      && (req.value.Some? ==>
            after.measureValue == validate(before.measureValue, req.value.value, db.metrics[before.metricUuid]).value)
      && after.uuid == before.uuid && after.metricUuid == before.metricUuid
      && after.componentUuid == before.componentUuid && after.createdAt == before.createdAt
  {
    match CheckParameters(req.value, req.description)
    case Some(e) => Err(e)
    case None =>
      if req.id !in db.measures then Err(IllegalArgument(UnknownMeasureMessage(req.id)))
      else
        var measure := db.measures[req.id];
        if measure.metricUuid !in db.metrics then Err(IllegalState(UnknownMetricMessage(measure.metricUuid)))
        else
          var metric := db.metrics[measure.metricUuid];
          if measure.componentUuid !in db.components then Err(ComponentNotFound(measure.componentUuid))
          else if !session.mayAdministerComponent then Err(Forbidden)
          else if session.userUuid.None? then Err(NullPointer(Some(NullUserMessage)))
          else
            var userUuid := session.userUuid.value;
            if userUuid !in db.users then Err(IllegalState(UnknownUserMessage(userUuid)))
            else
              match SetValue(measure, req.value, metric, validate)
              case Err(e) => Err(e)
              case Ok(valued) =>
                var updated := SetDescription(valued, req.description).(userUuid := userUuid, updatedAt := now);
                Ok(db.(measures := db.measures[req.id := updated]))
  }

  // ---------------------------------------------------------------------------
  // The failure paths, each with the exception the request ends with.
  // ---------------------------------------------------------------------------

  /** With neither value nor description, the request fails before anything is read. */
  lemma MissingParametersFailFirst(db: Db, id: Uuid, session: Session, now: int, validate: Validator)
    ensures Handle(db, UpdateRequest(id, None, None), session, now, validate)
        == Err(IllegalArgument(MissingParametersMessage))
  {
  }

  /** An unknown measure uuid is an illegal argument naming that uuid. */
  lemma UnknownMeasureFails(db: Db, req: UpdateRequest, session: Session, now: int, validate: Validator)
    requires req.value.Some? || req.description.Some?
    requires req.id !in db.measures
    ensures Handle(db, req, session, now, validate) == Err(IllegalArgument(UnknownMeasureMessage(req.id)))
  {
  }

  /** A measure whose metric is gone is an illegal state. */
  lemma MissingMetricFails(db: Db, req: UpdateRequest, session: Session, now: int, validate: Validator)
    requires req.value.Some? || req.description.Some?
    requires req.id in db.measures && db.measures[req.id].metricUuid !in db.metrics
    ensures Handle(db, req, session, now, validate)
        == Err(IllegalState(UnknownMetricMessage(db.measures[req.id].metricUuid)))
  {
  }

  /** A session user without a user row is an illegal state. */
  lemma MissingUserFails(db: Db, req: UpdateRequest, session: Session, now: int, validate: Validator)
    requires req.value.Some? || req.description.Some?
    requires req.id in db.measures && db.measures[req.id].metricUuid in db.metrics
    requires db.measures[req.id].componentUuid in db.components
    requires session.mayAdministerComponent
    requires session.userUuid.Some? && session.userUuid.value !in db.users
    ensures Handle(db, req, session, now, validate)
        == Err(IllegalState(UnknownUserMessage(session.userUuid.value)))
  {
  }

  /** Updating only the description leaves the value columns as they were. */
  lemma DescriptionOnlyKeepsValue(db: Db, id: Uuid, description: string, session: Session, now: int, validate: Validator)
    requires Admissible(db, UpdateRequest(id, None, Some(description)), session, validate)
    ensures var r := Handle(db, UpdateRequest(id, None, Some(description)), session, now, validate);
      && r.Ok?
      && r.value.measures[id].measureValue == db.measures[id].measureValue
      && r.value.measures[id].description == Some(description)
  {
  }

  /** Updating only the value leaves the description as it was. */
  lemma ValueOnlyKeepsDescription(db: Db, id: Uuid, value: string, session: Session, now: int, validate: Validator)
    requires Admissible(db, UpdateRequest(id, Some(value), None), session, validate)
    ensures var r := Handle(db, UpdateRequest(id, Some(value), None), session, now, validate);
      && r.Ok?
      && r.value.measures[id].description == db.measures[id].description
  {
  }
}

=== FILE: delete_template.dfy ===
/**
 Deleting a permission template. A template that is one of the default
 templates cannot be deleted; once a template is deleted, a stored default for
 applications that still names it is cleared.
 */
module DeleteTemplate {
  import opened Wrappers
  import opened Exceptions
  import opened Identifiers

  /**
   The default templates stored for the organization. Only the applications
   default is read and written by the deletion; the other two are carried along.
   */
  datatype DefaultTemplates = DefaultTemplates(
    projectUuid: Uuid,
    applicationsUuid: Option<Uuid>,
    portfoliosUuid: Option<Uuid>)

  /**
   The defaults as resolved for the installed editions: the project default is
   always there, the application and portfolio defaults may be absent.
   */
  datatype ResolvedDefaultTemplates = ResolvedDefaultTemplates(
    project: Uuid,
    application: Option<Uuid>,
    portfolio: Option<Uuid>)

  /** The persisted state the deletion reads and writes. */
  datatype Db = Db(templates: set<Uuid>, defaultTemplates: Option<DefaultTemplates>)

  /** What the user session answers to the two authorization checks. */
  datatype Session = Session(loggedIn: bool, globalAdmin: bool)

  /** An administrator's session. */
  const Admin := Session(true, true)

  /** The resolver, whose workings are not part of this model, is a parameter. */
  type Resolver = DefaultTemplates -> ResolvedDefaultTemplates

  const ProjectDefaultMessage := "It is not possible to delete the default permission template for projects"
  const ApplicationDefaultMessage := "It is not possible to delete the default permission template for applications"
  const PortfolioDefaultMessage := "It is not possible to delete the default permission template for portfolios"
  const MissingDefaultsMessage := "Can't find default templates"

  /** `uuid` is one of the resolved defaults. */
  predicate IsResolvedDefault(resolved: ResolvedDefaultTemplates, uuid: Uuid) {
    uuid in {resolved.project} + OptionToSet(resolved.application) + OptionToSet(resolved.portfolio)
  }

  function OptionToSet(o: Option<Uuid>): set<Uuid> {
    if o.Some? then {o.value} else {}
  }

  /**
   `checkTemplateUuidIsNotDefault`: refuses the template when it is the project
   default, then when it is the application default, then when it is the
   portfolio default, with the message of the first check that fails.
   */
  function CheckTemplateUuidIsNotDefault(resolved: ResolvedDefaultTemplates, uuid: Uuid): (r: Option<Failure>)
    ensures r.None? <==> !IsResolvedDefault(resolved, uuid)
    ensures r.Some? ==> r.value.BadRequest?
    ensures r == Some(BadRequest(ProjectDefaultMessage)) <==> uuid == resolved.project
    ensures r == Some(BadRequest(ApplicationDefaultMessage)) <==>
      uuid != resolved.project && resolved.application == Some(uuid)
    ensures r == Some(BadRequest(PortfolioDefaultMessage)) <==>
      uuid != resolved.project && resolved.application != Some(uuid) && resolved.portfolio == Some(uuid)
  {
    if resolved.project == uuid then Some(BadRequest(ProjectDefaultMessage))
    else if resolved.application.Some? && resolved.application.value == uuid then Some(BadRequest(ApplicationDefaultMessage))
    else if resolved.portfolio.Some? && resolved.portfolio.value == uuid then Some(BadRequest(PortfolioDefaultMessage))
    else None
  }

  /** `retrieveDefaultTemplates`: the stored defaults, or not-found. */
  function RetrieveDefaultTemplates(db: Db): (r: Result<DefaultTemplates, Failure>)
    ensures r.Err? <==> db.defaultTemplates.None?
    ensures r.Err? ==> r.error == NotFound(MissingDefaultsMessage)
    ensures r.Ok? ==> Some(r.value) == db.defaultTemplates
  {
    match db.defaultTemplates
    case None => Err(NotFound(MissingDefaultsMessage))
    case Some(d) => Ok(d)
  }

  /**
   `updateViewDefaultTemplateWhenGovernanceIsNotInstalled`: after `deleted` is
   gone, an applications default that names it would dangle, so it is cleared.
   */
  function ClearApplicationsDefault(d: DefaultTemplates, deleted: Uuid): (r: DefaultTemplates)
    ensures r.applicationsUuid != Some(deleted)
    ensures d.applicationsUuid != Some(deleted) ==> r == d
    ensures r.projectUuid == d.projectUuid && r.portfoliosUuid == d.portfoliosUuid
    ensures r.applicationsUuid.Some? ==> r.applicationsUuid == d.applicationsUuid
  {
    if d.applicationsUuid.Some? && d.applicationsUuid.value == deleted then d.(applicationsUuid := None)
    else d
  }

  /**
   `handle` and `doHandle`: the caller must be logged in, the template named
   by the request must exist, the caller must be a global administrator, the
   stored defaults must exist, and the template must not be a resolved
   default; only then is it deleted, and the applications default cleared if
   it named it. A refused request changes nothing.
   */
  function DeleteTemplate(db: Db, template: Uuid, session: Session, resolve: Resolver): (r: Result<Db, Failure>)
    ensures r.Ok? <==>
      && session.loggedIn
      && template in db.templates
      && session.globalAdmin
      && db.defaultTemplates.Some?
      && !IsResolvedDefault(resolve(db.defaultTemplates.value), template)
    ensures r.Ok? ==> r.value.templates == db.templates - {template}
    ensures r.Ok? ==> r.value.defaultTemplates.Some?
    ensures r.Ok? ==> r.value.defaultTemplates.value.applicationsUuid != Some(template)
  {
    if !session.loggedIn then Err(Unauthorized)
    else if template !in db.templates then Err(UnknownTemplate)
    else if !session.globalAdmin then Err(Forbidden)
    else
      match RetrieveDefaultTemplates(db)
      case Err(e) => Err(e)
      case Ok(defaults) =>
        match CheckTemplateUuidIsNotDefault(resolve(defaults), template)
        case Some(e) => Err(e)
        case None =>
          Ok(Db(db.templates - {template}, Some(ClearApplicationsDefault(defaults, template))))
  }

  // ---------------------------------------------------------------------------
  // Properties of the deletion.
  // ---------------------------------------------------------------------------

  /** The template that is the resolved project default is never deleted. */
  lemma ProjectDefaultIsProtected(db: Db, template: Uuid, resolve: Resolver)
    requires template in db.templates && db.defaultTemplates.Some?
    requires resolve(db.defaultTemplates.value).project == template
    ensures DeleteTemplate(db, template, Admin, resolve) == Err(BadRequest(ProjectDefaultMessage))
  {
  }

  /** A present application default that names the template blocks the deletion. */
  lemma ApplicationDefaultIsProtected(db: Db, template: Uuid, resolve: Resolver)
    requires template in db.templates && db.defaultTemplates.Some?
    requires resolve(db.defaultTemplates.value).application == Some(template)
    ensures DeleteTemplate(db, template, Admin, resolve).Err?
    ensures DeleteTemplate(db, template, Admin, resolve).error.BadRequest?
  {
  }

  /** A present portfolio default that names the template blocks the deletion. */
  lemma PortfolioDefaultIsProtected(db: Db, template: Uuid, resolve: Resolver)
    requires template in db.templates && db.defaultTemplates.Some?
    requires resolve(db.defaultTemplates.value).portfolio == Some(template)
    ensures DeleteTemplate(db, template, Admin, resolve).Err?
    ensures DeleteTemplate(db, template, Admin, resolve).error.BadRequest?
  {
  }

  /** With no application or portfolio default resolved, only the project default is protected. */
  lemma AbsentDefaultsRestrictNothing(db: Db, template: Uuid, resolve: Resolver)
    requires template in db.templates && db.defaultTemplates.Some?
    requires resolve(db.defaultTemplates.value).application.None?
    requires resolve(db.defaultTemplates.value).portfolio.None?
    ensures DeleteTemplate(db, template, Admin, resolve).Ok?
        <==> template != resolve(db.defaultTemplates.value).project
  {
  }

  /** Missing stored defaults are reported as not-found and nothing is deleted. */
  lemma MissingDefaultsIsNotFound(db: Db, template: Uuid, resolve: Resolver)
    requires template in db.templates && db.defaultTemplates.None?
    ensures DeleteTemplate(db, template, Admin, resolve) == Err(NotFound(MissingDefaultsMessage))
  {
  }

  /**
   A deletion leaves the stored defaults as they were, except for an
   applications default naming the deleted template, which becomes null.
   */
  lemma DeletionTouchesOnlyDanglingApplicationsDefault(db: Db, template: Uuid, resolve: Resolver)
    requires DeleteTemplate(db, template, Admin, resolve).Ok?
    ensures var d := db.defaultTemplates.value;
      var d' := DeleteTemplate(db, template, Admin, resolve).value.defaultTemplates.value;
      && (d.applicationsUuid == Some(template) ==> d' == d.(applicationsUuid := None))
      && (d.applicationsUuid != Some(template) ==> d' == d)
  {
  }
}

=== FILE: permission_change.dfy ===
/**
 A request to add or remove one permission, either globally (no project) or on
 a project. Building one checks that the permission exists in its scope.
 */
module PermissionChanges {
  import opened Wrappers
  import opened Exceptions
  import opened Identifiers

  /** The two kinds of change. */
  datatype Operation = Add | Remove

  /** A reference to a project by its uuid. */
  datatype ProjectUuid = ProjectUuid(uuid: Uuid)

  /** A global permission, known by its key. */
  datatype OrganizationPermission = OrganizationPermission(key: string)

  /** The permissions the server knows, in the order the service lists them. */
  datatype PermissionService = PermissionService(
    allOrganizationPermissions: seq<OrganizationPermission>,
    allProjectPermissions: seq<string>)

  /** A validated change. */
  datatype PermissionChange = PermissionChange(
    operation: Operation,
    permission: string,
    project: Option<ProjectUuid>)

  /** The keys of the global permissions, in service order. */
  function OrganizationKeys(service: PermissionService): seq<string> {
    seq(|service.allOrganizationPermissions|, i requires 0 <= i < |service.allOrganizationPermissions| =>
      service.allOrganizationPermissions[i].key)
  }

  /**
   The `anyMatch` test on the global permissions accepts exactly the keys the
   refusal message lists.
   */
  lemma AnyMatchIsListedKey(service: PermissionService, p: string)
    ensures p in OrganizationKeys(service) <==>
      exists i | 0 <= i < |service.allOrganizationPermissions| :: service.allOrganizationPermissions[i].key == p
  {
    var keys := OrganizationKeys(service);
    if p in keys {
      var i :| 0 <= i < |keys| && keys[i] == p;
      assert service.allOrganizationPermissions[i].key == p;
    }
    if exists i | 0 <= i < |service.allOrganizationPermissions| :: service.allOrganizationPermissions[i].key == p {
      var i :| 0 <= i < |service.allOrganizationPermissions| && service.allOrganizationPermissions[i].key == p;
      assert keys[i] == p;
    }
  }

  /** Reference definition: the permissions that are valid in each scope. */
  predicate IsValidPermission(service: PermissionService, permission: string, project: Option<ProjectUuid>) {
    if project.None? then permission in OrganizationKeys(service)
    else permission in service.allProjectPermissions
  }

  function GlobalPermissionMessage(permission: string, service: PermissionService): string {
    "Invalid global permission '" + permission + "'. Valid values are " + ListToString(OrganizationKeys(service))
  }

  function ProjectPermissionMessage(permission: string, service: PermissionService): string {
    "Invalid project permission '" + permission + "'. Valid values are " + ListToString(service.allProjectPermissions)
  }

  /**
   The constructor: a null operation, then a null permission, is a null-pointer
   failure; a global change must name the key of some global permission and a
   project change one of the project permissions, or the request is bad.
   */
  function NewPermissionChange(operation: Option<Operation>, permission: Option<string>,
                               project: Option<ProjectUuid>, service: PermissionService): (r: Result<PermissionChange, Failure>)
    ensures operation.None? ==> r == Err(NullPointer(None))
    ensures operation.Some? && permission.None? ==> r == Err(NullPointer(None))
    ensures r.Ok? <==>
      operation.Some? && permission.Some? && IsValidPermission(service, permission.value, project)
    ensures r.Ok? ==> GetOperation(r.value) == operation.value
    ensures r.Ok? ==> GetPermission(r.value) == permission.value
    ensures r.Ok? ==> GetProject(r.value) == project
    ensures operation.Some? && permission.Some? && project.None? && r.Err? ==>
      r.error == BadRequest(GlobalPermissionMessage(permission.value, service))
    ensures operation.Some? && permission.Some? && project.Some? && r.Err? ==>
      r.error == BadRequest(ProjectPermissionMessage(permission.value, service))
  {
    if operation.None? then Err(NullPointer(None))
    else if permission.None? then Err(NullPointer(None))
    else
      var p := permission.value;
      AnyMatchIsListedKey(service, p);
      if project.None? then
        if exists i | 0 <= i < |service.allOrganizationPermissions| :: service.allOrganizationPermissions[i].key == p
        then Ok(PermissionChange(operation.value, p, project))
        else Err(BadRequest(GlobalPermissionMessage(p, service)))
      else
        if p in service.allProjectPermissions
        then Ok(PermissionChange(operation.value, p, project))
        else Err(BadRequest(ProjectPermissionMessage(p, service)))
  }

  function GetOperation(change: PermissionChange): Operation {
    change.operation
  }

  function GetPermission(change: PermissionChange): string {
    change.permission
  }

  function GetProject(change: PermissionChange): Option<ProjectUuid> {
    change.project
  }

  /** `getProjectUuid`: null for a global change, else the project's uuid. */
  function GetProjectUuid(change: PermissionChange): (r: Option<Uuid>)
    ensures r.None? <==> GetProject(change).None?
    ensures r.Some? ==> r.value == GetProject(change).value.uuid
  {
    match change.project
    case None => None
    case Some(p) => Some(p.uuid)
  }

  /** There are exactly two operations. */
  lemma OperationIsAddOrRemove(op: Operation)
    ensures op == Add || op == Remove
    ensures Add != Remove
  {
  }

  /**
   A change built successfully reports, through its getters, exactly what it
   was built from; its project uuid is null exactly for a global change.
   */
  lemma GettersRoundTrip(op: Operation, permission: string, project: Option<ProjectUuid>, service: PermissionService)
    requires IsValidPermission(service, permission, project)
    ensures var r := NewPermissionChange(Some(op), Some(permission), project, service);
      && r.Ok?
      && GetOperation(r.value) == op
      && GetPermission(r.value) == permission
      && GetProject(r.value) == project
      && (GetProjectUuid(r.value).None? <==> project.None?)
      && (project.Some? ==> GetProjectUuid(r.value) == Some(project.value.uuid))
  {
  }

  /** The same permission may be valid in one scope and refused in the other. */
  lemma ScopesAreIndependent()
    ensures var service := PermissionService([OrganizationPermission("admin")], ["codeviewer"]);
      && NewPermissionChange(Some(Add), Some("admin"), None, service).Ok?
      && NewPermissionChange(Some(Add), Some("admin"), Some(ProjectUuid("P1")), service).Err?
      && NewPermissionChange(Some(Add), Some("codeviewer"), None, service).Err?
      && NewPermissionChange(Some(Add), Some("codeviewer"), Some(ProjectUuid("P1")), service).Ok?
  {
    var service := PermissionService([OrganizationPermission("admin")], ["codeviewer"]);
    assert OrganizationKeys(service) == ["admin"];
  }
}

=== FILE: quality_gate_conditions.dfy ===
/**
 The store of quality-gate conditions: the `quality_gate_conditions` table seen
 through its data-access object. A condition is one threshold rule (metric,
 operator, error threshold) of a quality gate; rows are keyed by a uuid the
 caller chooses, and the store is modelled as a map from that uuid to the row.
 */
module QualityGateConditions {
  import opened Wrappers
  import opened Exceptions
  import opened Identifiers

  /** One row of the condition table. */
  datatype Condition = Condition(
    uuid: Uuid,
    qualityGateId: int,
    metricUuid: Uuid,
    operator: string,
    errorThreshold: string,
    createdAt: int,
    updatedAt: int)

  /** The part of a metric row the cleanup reads; the metric table is keyed by metric uuid. */
  datatype Metric = Metric(enabled: bool)

  /** The condition table, keyed by primary key. */
  type Store = map<Uuid, Condition>

  /** Every row is stored under its own uuid. */
  ghost predicate WellKeyed(s: Store) {
    forall u | u in s :: s[u].uuid == u
  }

  /** Two rows agree on the four columns a caller supplies. */
  predicate SameRule(a: Condition, b: Condition) {
    && a.qualityGateId == b.qualityGateId
    && a.metricUuid == b.metricUuid
    && a.operator == b.operator
    && a.errorThreshold == b.errorThreshold
  }

  /** The uuids of the conditions that belong to gate `gateId`. */
  function GateUuids(s: Store, gateId: int): set<Uuid> {
    set u | u in s && s[u].qualityGateId == gateId
  }

  /**
   `insert`: stores `c` under its caller-chosen uuid, stamping the creation and
   update dates with the clock reading `now`. A uuid already present violates
   the primary key.
   */
  function Insert(s: Store, c: Condition, now: int): (r: Result<Store, Failure>)
    ensures r.Err? <==> c.uuid in s
    ensures r.Err? ==> r.error == DuplicateKey(c.uuid)
    ensures r.Ok? ==> r.value.Keys == s.Keys + {c.uuid}
    ensures r.Ok? ==> forall u | u in s :: r.value[u] == s[u]
    ensures r.Ok? ==> SameRule(r.value[c.uuid], c) && r.value[c.uuid].uuid == c.uuid
    ensures r.Ok? ==> r.value[c.uuid].createdAt == now
    ensures r.Ok? && WellKeyed(s) ==> WellKeyed(r.value)
  {
    if c.uuid in s then Err(DuplicateKey(c.uuid))
    else Ok(s[c.uuid := c.(createdAt := now, updatedAt := now)])
  }

  /** `selectByUuid`: the row with this uuid, or null when there is none. */
  function SelectByUuid(s: Store, uuid: Uuid): (r: Option<Condition>)
    ensures r.None? <==> uuid !in s
    ensures r.Some? && WellKeyed(s) ==> r.value.uuid == uuid
    ensures r.Some? ==> r.value in s.Values
  {
    if uuid in s then Some(s[uuid]) else None
  }

  /**
   `update`: rewrites metric, operator and threshold of the row whose uuid is
   `c.uuid`, and stamps its update date; gate, uuid and creation date stay. An
   update naming no stored row changes nothing, as an SQL update of zero rows.
   */
  function Update(s: Store, c: Condition, now: int): (r: Store)
    ensures r.Keys == s.Keys
    ensures forall u | u in s && u != c.uuid :: r[u] == s[u]
    ensures c.uuid in s ==>
      && r[c.uuid].metricUuid == c.metricUuid
      && r[c.uuid].operator == c.operator
      && r[c.uuid].errorThreshold == c.errorThreshold
      && r[c.uuid].uuid == s[c.uuid].uuid
      && r[c.uuid].qualityGateId == s[c.uuid].qualityGateId
      && r[c.uuid].createdAt == s[c.uuid].createdAt
      && r[c.uuid].updatedAt == now
    ensures c.uuid !in s ==> r == s
    ensures WellKeyed(s) ==> WellKeyed(r)
  {
    if c.uuid in s then
      var prev := s[c.uuid];
      s[c.uuid := prev.(metricUuid := c.metricUuid, operator := c.operator,
                         errorThreshold := c.errorThreshold, updatedAt := now)]
    else s
  }

  /** `delete`: removes the row with the uuid of `c`, if any. */
  function Delete(s: Store, c: Condition): (r: Store)
    ensures c.uuid !in r
    ensures forall u | u != c.uuid :: (u in r <==> u in s)
    ensures forall u | u in r :: r[u] == s[u]
    ensures WellKeyed(s) ==> WellKeyed(r)
  {
    s - {c.uuid}
  }

  /** A metric reference is valid when the metric exists and is enabled. */
  predicate IsValidMetric(metrics: map<Uuid, Metric>, metricUuid: Uuid) {
    metricUuid in metrics && metrics[metricUuid].enabled
  }

  /**
   `deleteConditionsWithInvalidMetrics`: drops every condition whose metric
   is missing from the metric table or disabled, and keeps the rest as they are.
   */
  function DeleteConditionsWithInvalidMetrics(s: Store, metrics: map<Uuid, Metric>): (r: Store)
    ensures forall u :: u in r <==> u in s && IsValidMetric(metrics, s[u].metricUuid)
    ensures forall u | u in r :: r[u] == s[u]
    ensures WellKeyed(s) ==> WellKeyed(r)
  {
    map u | u in s && IsValidMetric(metrics, s[u].metricUuid) :: s[u]
  }

  // ---------------------------------------------------------------------------
  // Listing the conditions of one gate, ordered by creation date.
  // ---------------------------------------------------------------------------

  /** Creation dates never decrease along `cs`. */
  predicate SortedByCreatedAt(cs: seq<Condition>) {
    forall i, j | 0 <= i < j < |cs| :: cs[i].createdAt <= cs[j].createdAt
  }

  /** No uuid occurs twice in `cs`. */
  predicate DistinctUuids(cs: seq<Condition>) {
    forall i, j | 0 <= i < j < |cs| :: cs[i].uuid != cs[j].uuid
  }

  /** `cs` with `c` placed after every row created no later than it, so the order is kept. */
  function InsertSorted(cs: seq<Condition>, c: Condition): (r: seq<Condition>)
    requires SortedByCreatedAt(cs)
    ensures SortedByCreatedAt(r)
    ensures |r| == |cs| + 1
    ensures forall x :: x in r <==> x in cs || x == c
  {
    if |cs| == 0 || c.createdAt < cs[0].createdAt then
      [c] + cs
    else
      var rest := InsertSorted(cs[1..], c);
      assert forall x | x in rest :: cs[0].createdAt <= x.createdAt;
      [cs[0]] + rest
  }

  /** A row whose uuid `cs` lacks keeps the uuids of `cs` distinct when inserted. */
  lemma {:induction false} InsertSortedDistinct(cs: seq<Condition>, c: Condition)
    requires SortedByCreatedAt(cs) && DistinctUuids(cs)
    requires forall x | x in cs :: x.uuid != c.uuid
    ensures DistinctUuids(InsertSorted(cs, c))
  {
    if |cs| == 0 || c.createdAt < cs[0].createdAt {
      var r := [c] + cs;
      forall i, j | 0 <= i < j < |r| ensures r[i].uuid != r[j].uuid {
        if i == 0 {
          assert r[j] == cs[j - 1] && cs[j - 1] in cs;
        } else {
          assert r[i] == cs[i - 1] && r[j] == cs[j - 1];
        }
      }
    } else {
      var tail := cs[1..];
      InsertSortedDistinct(tail, c);
      var rest := InsertSorted(tail, c);
      var r := [cs[0]] + rest;
      assert r == InsertSorted(cs, c);
      forall i, j | 0 <= i < j < |r| ensures r[i].uuid != r[j].uuid {
        if i == 0 {
          assert r[j] == rest[j - 1] && rest[j - 1] in rest;
          if rest[j - 1] != c {
            var k :| 0 <= k < |tail| && tail[k] == rest[j - 1];
            assert cs[k + 1] == tail[k];
          }
        } else {
          assert r[i] == rest[i - 1] && r[j] == rest[j - 1];
        }
      }
    }
  }

  /**
   The listing built so far: sorted, without repeated uuids, and holding
   exactly the gate's rows whose uuids have been visited (those not in `todo`).
   */
  ghost predicate ListedSoFar(s: Store, gateId: int, todo: set<Uuid>, r: seq<Condition>) {
    && todo <= s.Keys
    && SortedByCreatedAt(r)
    && DistinctUuids(r)
    && (forall c :: c in r <==> c in s.Values && c.qualityGateId == gateId && c.uuid !in todo)
    && |r| == |GateUuids(s, gateId) - todo|
  }

  /** Visiting one more uuid, and inserting its row when it is of the gate, keeps the listing right. */
  lemma ListedSoFarStep(s: Store, gateId: int, todo: set<Uuid>, r: seq<Condition>, u: Uuid)
    requires WellKeyed(s) && ListedSoFar(s, gateId, todo, r) && u in todo
    ensures ListedSoFar(s, gateId, todo - {u}, if s[u].qualityGateId == gateId then InsertSorted(r, s[u]) else r)
  {
    if s[u].qualityGateId == gateId {
      forall x | x in r ensures x.uuid != u {
      }
      InsertSortedDistinct(r, s[u]);
      assert GateUuids(s, gateId) - (todo - {u}) == (GateUuids(s, gateId) - todo) + {u};
    } else {
      assert GateUuids(s, gateId) - (todo - {u}) == GateUuids(s, gateId) - todo;
    }
  }

  /**
   `selectForQualityGate`: the conditions of gate `gateId`, each exactly once
   and none of another gate, ordered by creation date (rows created at the
   same instant come in no particular order).
   */
  method SelectForQualityGate(s: Store, gateId: int) returns (r: seq<Condition>)
    requires WellKeyed(s)
    ensures SortedByCreatedAt(r)
    ensures DistinctUuids(r)
    ensures forall c :: c in r <==> c in s.Values && c.qualityGateId == gateId
    ensures |r| == |GateUuids(s, gateId)|
  {
    var todo := s.Keys;
    r := [];
    while todo != {}
      invariant ListedSoFar(s, gateId, todo, r)
      decreases todo
    {
      var u :| u in todo;
      ListedSoFarStep(s, gateId, todo, r, u);
      if s[u].qualityGateId == gateId {
        r := InsertSorted(r, s[u]);
      }
      todo := todo - {u};
    }
    assert GateUuids(s, gateId) - {} == GateUuids(s, gateId);
  }

  // ---------------------------------------------------------------------------
  // Properties the data-access object's test asserts.
  // ---------------------------------------------------------------------------

  /** An inserted condition is found again by its uuid with the columns it was given. */
  lemma InsertThenSelect(s: Store, c: Condition, now: int)
    requires c.uuid !in s
    ensures Insert(s, c, now).Ok?
    ensures var found := SelectByUuid(Insert(s, c, now).value, c.uuid);
      found.Some? && SameRule(found.value, c) && found.value.uuid == c.uuid
  {
  }

  /** A uuid that was never inserted is reported absent, not as an error. */
  lemma SelectUnknownIsNull(s: Store, uuid: Uuid)
    requires uuid !in s
    ensures SelectByUuid(s, uuid) == None
  {
  }

  /** Deleting a condition hides it and leaves every other condition retrievable. */
  lemma DeleteKeepsOthers(s: Store, c: Condition, other: Uuid)
    requires other in s && other != c.uuid
    ensures SelectByUuid(Delete(s, c), c.uuid) == None
    ensures SelectByUuid(Delete(s, c), other) == SelectByUuid(s, other)
  {
  }

  /** After an update, the updated row reads back with the new rule and the others are as before. */
  lemma UpdateThenSelect(s: Store, c: Condition, now: int, other: Uuid)
    requires c.uuid in s && c.qualityGateId == s[c.uuid].qualityGateId
    requires other != c.uuid
    ensures var found := SelectByUuid(Update(s, c, now), c.uuid);
      found.Some? && SameRule(found.value, c)
    ensures SelectByUuid(Update(s, c, now), other) == SelectByUuid(s, other)
  {
  }

  /** The cleanup keeps a condition exactly when its metric exists and is enabled. */
  lemma CleanupKeepsExactlyValid(s: Store, metrics: map<Uuid, Metric>, u: Uuid)
    requires u in s
    ensures SelectByUuid(DeleteConditionsWithInvalidMetrics(s, metrics), u).Some?
        <==> s[u].metricUuid in metrics && metrics[s[u].metricUuid].enabled
    ensures IsValidMetric(metrics, s[u].metricUuid) ==>
        SelectByUuid(DeleteConditionsWithInvalidMetrics(s, metrics), u) == Some(s[u])
  {
  }

  /**
   The scenario of the cleanup test: one condition on an enabled metric, one on
   a disabled metric, one on a metric uuid that does not exist; only the first survives.
   */
  lemma CleanupScenario()
    ensures var metrics := map["m1" := Metric(true), "m2" := Metric(false)];
      var s := map[
        "c1" := Condition("c1", 1, "m1", "GT", "20", 0, 0),
        "c2" := Condition("c2", 1, "m2", "GT", "20", 1, 1),
        "c3" := Condition("c3", 1, "299", "GT", "20", 2, 2)];
      var r := DeleteConditionsWithInvalidMetrics(s, metrics);
      SelectByUuid(r, "c1").Some? && SelectByUuid(r, "c2").None? && SelectByUuid(r, "c3").None?
  {
    var metrics := map["m1" := Metric(true), "m2" := Metric(false)];
    var s := map[
      "c1" := Condition("c1", 1, "m1", "GT", "20", 0, 0),
      "c2" := Condition("c2", 1, "m2", "GT", "20", 1, 1),
      "c3" := Condition("c3", 1, "299", "GT", "20", 2, 2)];
    assert IsValidMetric(metrics, "m1");
  }

  // ---------------------------------------------------------------------------
  // A run of inserts, as the listing test performs.
  // ---------------------------------------------------------------------------

  /** One insert request: the condition and the clock reading at that moment. */
  datatype Insertion = Insertion(condition: Condition, at: int)

  /** Performs the inserts in order; the first failing one aborts the run. */
  function InsertAll(s: Store, ins: seq<Insertion>): Result<Store, Failure>
    decreases |ins|
  {
    if |ins| == 0 then Ok(s)
    else
      match InsertAll(s, ins[..|ins| - 1])
      case Err(e) => Err(e)
      case Ok(s') => Insert(s', ins[|ins| - 1].condition, ins[|ins| - 1].at)
  }

  /** The uuids the run inserts for gate `gateId`. */
  function InsertedFor(ins: seq<Insertion>, gateId: int): set<Uuid> {
    set i | 0 <= i < |ins| && ins[i].condition.qualityGateId == gateId :: ins[i].condition.uuid
  }

  /** How many of the inserts are for gate `gateId`. */
  function CountFor(ins: seq<Insertion>, gateId: int): nat
    decreases |ins|
  {
    if |ins| == 0 then 0
    else CountFor(ins[..|ins| - 1], gateId) + (if ins[|ins| - 1].condition.qualityGateId == gateId then 1 else 0)
  }

  /** No two inserts of the run choose the same uuid. */
  predicate DistinctChoices(ins: seq<Insertion>) {
    forall i, j | 0 <= i < j < |ins| :: ins[i].condition.uuid != ins[j].condition.uuid
  }

  /**
   A run of inserts into an empty table succeeds exactly when the chosen uuids
   are pairwise distinct, and then the table's keys are those uuids.
   */
  lemma {:induction false} InsertAllSucceeds(ins: seq<Insertion>)
    ensures InsertAll(map[], ins).Ok? <==> DistinctChoices(ins)
    ensures InsertAll(map[], ins).Ok? ==>
      && WellKeyed(InsertAll(map[], ins).value)
      && InsertAll(map[], ins).value.Keys == set i | 0 <= i < |ins| :: ins[i].condition.uuid
    decreases |ins|
  {
    if |ins| > 0 {
      var init := ins[..|ins| - 1];
      var c := ins[|ins| - 1].condition;
      InsertAllSucceeds(init);
      assert forall i | 0 <= i < |init| :: init[i] == ins[i];
      assert DistinctChoices(ins) <==>
        DistinctChoices(init) && forall i | 0 <= i < |init| :: init[i].condition.uuid != c.uuid;
      assert (set i | 0 <= i < |ins| :: ins[i].condition.uuid)
          == (set i | 0 <= i < |init| :: init[i].condition.uuid) + {c.uuid};
      if InsertAll(map[], init).Ok? {
        var s' := InsertAll(map[], init).value;
        if c.uuid in s' {
          var i :| 0 <= i < |init| && init[i].condition.uuid == c.uuid;
        }
      }
    }
  }

  /** A successful insert adds its uuid to the listing of its own gate and of no other. */
  lemma InsertGateUuids(s: Store, c: Condition, now: int, gateId: int)
    requires Insert(s, c, now).Ok?
    ensures GateUuids(Insert(s, c, now).value, gateId)
        == GateUuids(s, gateId) + (if c.qualityGateId == gateId then {c.uuid} else {})
  {
  }

  /** Extending a run by one insert extends the uuids it chose for the insert's gate. */
  lemma InsertedForSnoc(ins: seq<Insertion>, gateId: int)
    requires |ins| > 0
    ensures var c := ins[|ins| - 1].condition;
      InsertedFor(ins, gateId)
        == InsertedFor(ins[..|ins| - 1], gateId) + (if c.qualityGateId == gateId then {c.uuid} else {})
  {
    var init := ins[..|ins| - 1];
    assert forall i | 0 <= i < |init| :: init[i] == ins[i];
  }

  /**
   After a successful run into an empty table, every gate holds exactly the
   conditions inserted for it, as many as were inserted for it.
   */
  lemma {:induction false} InsertAllPerGate(ins: seq<Insertion>, gateId: int)
    requires InsertAll(map[], ins).Ok?
    ensures GateUuids(InsertAll(map[], ins).value, gateId) == InsertedFor(ins, gateId)
    ensures |GateUuids(InsertAll(map[], ins).value, gateId)| == CountFor(ins, gateId)
    decreases |ins|
  {
    if |ins| > 0 {
      var init := ins[..|ins| - 1];
      var last := ins[|ins| - 1];
      var s' := InsertAll(map[], init).value;
      assert InsertAll(map[], ins) == Insert(s', last.condition, last.at);
      InsertAllPerGate(init, gateId);
      InsertGateUuids(s', last.condition, last.at, gateId);
      InsertedForSnoc(ins, gateId);
    }
  }
}
